=== FILE: README.md ===
# Infoowl analytics adapter, modelled in Dafny

The Infoowl adapter is a browser-side integration for an analytics
dispatch framework. It receives page, identify, group, track and alias
events from its host and normalises each one into a common envelope. It
keeps the referrer attribution and reads the AMP id through a cookie (or
local-storage) accessor. It delivers each event to
`http(s)://<apiHost><path>`, by beacon or by a JSON POST.

This project models that adapter (`lib/index.js`) as pure functions over
immutable data, and proves what each step promises:

- `wrappers.dfy`: `Option` and `Result`.
- `js_value.dfy` (`JsValue`): JavaScript values, truthiness, `||` and
  `||`-chains, property reads, and the frame predicate `SameOutside`
  ("these two objects agree on every key outside a set").
- `storage.dfy` (`Storage`): choosing a backend by URL scheme, the cookie
  defaults, and the accessor `cookie(name[, val])` with its domain-scoped
  write and host-only fallback. Both the accessor as written and a
  corrected one are modelled (see Findings).
- `environment.dfy` (`Environment`): configuration and its defaults, the
  host (user, version, known integrations), the browser, and the
  libraries the adapter calls. The libraries are opaque functions.
- `normalize.dfy` (`Normalization`): referrer attribution, the AMP id, and
  normalisation of the envelope and its context.
- `transport.dfy` (`Transport`): the URL, the beacon-or-HTTP choice, and
  the callback call each leads to.
- `handlers.dfy` (`Handlers`): the five per-event handlers, including the
  track and alias shaping.
- `dispatch.dfy` (`Dispatch`): initialisation and the invoke loop, with
  its ready signals.

The browser and the libraries are record fields of function type, so
each proof holds for every behaviour they might have:
- the URL scheme, page address and query string;
- `sendBeacon`, the HTTP request, the registrable-domain lookup and
  cookie acceptance;
- UTM and ad-parameter parsing, md5, JSON, `extend`, and string
  conversion.

The clock and the uuid of each normalisation are a per-event `Tick`. The
host's user and the browser are read afresh on every invocation
(`lib/index.js:153`, `170`, `172`, `264`), so a run gives each event its
own `Scene`. So is the storage backend (`lib/index.js:204`, `289`), which
other scripts and the browser also change: the scene carries that
change, applied to the store before the event. The configuration and
the libraries belong to the integration instance and stay fixed for the
run.

Two behaviours of the code are easy to miss, and the model follows them:
- The referrer step (`lib/index.js:179`) sits after the `if (query)` of
  line 178, not inside it. It runs on every normalisation, so a stored
  attribution is merged and re-persisted even without a query string.
- Ready (`lib/index.js:79`) is signalled after the handler call on line
  78 returns. A handler that throws leaves the invoke callback before
  line 79, so the model emits a `Threw` signal and no ready for that
  event.

## Model

| member | source | states |
|---|---|---|
| `JsValue.Truthy` | lib/index.js:154 | A value is truthy iff it is not one of JavaScript's falsy values: undefined, null, false, 0 and the empty string. |
| `JsValue.OrChainPicksFirstTruthy` | lib/index.js:154 | A left-to-right chain of JavaScript or-operators yields its first truthy operand, or its last operand when none is truthy. It is truthy exactly when some operand is. |
| `JsValue.ToJsString` | lib/index.js:218 | A string path is concatenated as it is; any other value goes through the engine's string conversion. |
| `Storage.SelectStorage` | lib/index.js:53-55 | Local storage is chosen exactly when the protocol is `file:` or `chrome-extension:`; the cookie jar is chosen for every other protocol. |
| `Storage.CookieDomain` | lib/index.js:265-266 | The cookie domain is `.` plus the registrable domain, or the empty string when that domain is empty. |
| `Storage.CookieAsWritten` | lib/index.js:260-276 | A one-argument call only reads and issues no write. A write returns undefined. It issues the domain-scoped write first, taken from the defaults (one year, not secure, path `/`). It issues exactly one host-only retry iff the read-back is falsy. Every write is the defaults with only the domain set. The resulting store is those writes replayed, and no other name changes. |
| `Storage.CookieAsWrittenPersists` | lib/index.js:268-275 | After a write, the value reads back iff the backend took the domain-scoped write, or it took the host-only write and no truthy value was stored before, or the value was already stored. |
| `Storage.StaleValueMasksRefusedWrite` | lib/index.js:271-275 | With an older non-empty value under the name and the domain-scoped write refused, no fallback is issued. The new value is lost even though the host-only write would have been accepted. |
| `Storage.Cookie` | lib/index.js:260-276 | The same contract as `CookieAsWritten`, except that the retry happens iff the read-back differs from the value written. No other name changes. |
| `Storage.CookieWritePersists` | lib/index.js:268-275 | If the backend accepts either the domain-scoped write or the host-only write, the value reads back afterwards. |
| `Normalization.Attribution` | lib/index.js:289-295 | Fresh ad parameters from a non-empty query win. Otherwise a non-empty stored entry is used, parsed. Otherwise there is no attribution. |
| `Normalization.ReferrerId` | lib/index.js:288-300 | With no attribution, the context and the store are untouched and nothing is written. Otherwise `context.referrer` becomes `extend(referrer or {}, ad)` and no other context key changes. `stringify(ad)` is then written under `s:context.referrer` through the accessor as written: the writes are exactly the ones that accessor issues (one or two), and no other stored name changes. |
| `Normalization.ReferrerPersisted` | lib/index.js:297-299 | The serialised attribution reads back afterwards iff the backend took the domain-scoped write, or it took the host-only write and no truthy entry was stored before, or that same serialisation was already stored. A refused domain write over an older entry keeps the older one. |
| `Normalization.CorrectedAttributionStore` | lib/index.js:297-299 | The attribution write through the corrected accessor: nothing is written without an attribution, and no other stored name changes. |
| `Normalization.CorrectedReferrerPersisted` | lib/index.js:297-299 | Through the corrected accessor, the attribution in force reads back whenever the backend takes either write, whatever was stored before. |
| `Normalization.AmpId` | lib/index.js:203-206 | A non-empty `segment_amp_id` entry sets `context.amp = {id}`; otherwise the context is unchanged. |
| `Normalization.ContextBaseFrame` | lib/index.js:173 | Envelopes that agree on `context` and `options` start from the same context. |
| `Normalization.ShapeContext` | lib/index.js:176-178 | Sets the user agent. Keeps a truthy `library` and otherwise sets the default descriptor. Sets the campaign only for a non-empty query. No other context key changes. |
| `Normalization.StampEnvelope` | lib/index.js:173-189 | `options` is removed and `context` is set. `writeKey` is the API key. A truthy caller `userId` is kept; otherwise the host user id is used. `anonymousId` is always the host's. `sentAt` is the clock. `_metadata` is set exactly when configured and is otherwise left alone. No other key changes. |
| `Normalization.PreparedContext` | lib/index.js:173-179 | The context before the AMP step: the user agent, the library rule, the campaign rule, and the referrer merged exactly when an attribution is in force. No other key changes. |
| `Normalization.Prepare` | lib/index.js:168-189 | Fails exactly when `context or options or {}` is a primitive (stored JSON being parsed totally, see Left out). Otherwise the envelope is stamped around the prepared context, and the store is the one after the attribution write. |
| `Normalization.MessageId` | lib/index.js:191 | The id starts with `ajs-`. The rest is the digest of the serialised envelope followed by the fresh uuid. |
| `Normalization.Normalize` | lib/index.js:168-195 | Succeeds exactly when the chosen context is an object (stored JSON being parsed totally, see Left out). The message id covers the stamped envelope without the AMP id, which is added to the context after the digest. |
| `Normalization.NormalizedIdentity` | lib/index.js:173-181 | After normalisation there is no `options` key and `context` is an object. `writeKey` is the API key. `userId` is the caller's if truthy, else the host user id. `anonymousId` is always the host's. |
| `Normalization.NormalizedStamp` | lib/index.js:182-191 | After normalisation `sentAt` is the clock, `_metadata` lists the bundled and unbundled integrations exactly when configured, and the message id carries the `ajs-` prefix over the digest of the stamped envelope. |
| `Normalization.NormalizeKeepsOtherFields` | lib/index.js:168-195 | Normalisation adds, removes or changes no envelope key outside the eight it normalises. |
| `Normalization.NormalizeKeepsField` | lib/index.js:168-195 | The per-key form of the previous row. |
| `Normalization.NormalizedContext` | lib/index.js:173-206 | The final context is the prepared one except for `amp`. `amp` is `{id}` when the AMP entry is non-empty after the referrer step, and otherwise stays as the caller left it. |
| `Transport.Url` | lib/index.js:218 | The URL is `https://` when the connection is secure and `http://` otherwise, followed by the API host and the path. |
| `Transport.DefaultEndpoint` | lib/index.js:38-45 | Under the default options (insecure, host `localhost:8080`), a path is sent to `http://localhost:8080` followed by the path. |
| `Transport.UrlDeterminesPath` | lib/index.js:218 | Under one configuration, two paths give the same URL only if they are equal. |
| `Transport.SendAjax` | lib/index.js:240-249 | POSTs the envelope with a JSON content type. A truthy error calls `fn(err)`. Otherwise it calls `fn(null, res)`, with `res.url` set to the URL and nothing else in `res` changed. |
| `Transport.Transmit` | lib/index.js:225-249 | The beacon is tried iff the option is set and the browser has `sendBeacon`, and it carries the serialised envelope. A beacon that queues calls `fn()` with no HTTP request. Otherwise the HTTP request to the same URL is issued last, and its reply decides the callback call. There are two transmissions exactly when the beacon was tried and refused, and one otherwise. |
| `Transport.TransmitOnce` | lib/index.js:225-249 | Only the last transmission can be the HTTP request, and it is one iff the beacon did not queue. The callback gets no arguments after a queued beacon, `err` after a truthy error, and `null` and the response otherwise. |
| `Transport.Send` | lib/index.js:217-250 | Fails exactly when normalisation throws (stored JSON being parsed totally, see Left out). Otherwise it delivers the normalised envelope to the URL of the path, and a falsy callback becomes the no-op. |
| `Transport.SendDelivers` | lib/index.js:217-223 | A send that normalises goes to the URL of its path, carries the normalised envelope, and completes through the caller's callback when that is truthy, else the no-op. |
| `Handlers.OnPage` | lib/index.js:101-103 | A page event is delivered iff its context is an object. It goes to `/page` with the envelope only normalised, and completes through the no-op. |
| `Handlers.OnIdentify` | lib/index.js:112-114 | An identify event is delivered iff its context is an object. It goes to `/identify` with the envelope only normalised, and completes through the no-op. |
| `Handlers.OnGroup` | lib/index.js:123-125 | A group event is delivered iff its context is an object. It goes to `/group` with the envelope only normalised, and completes through the no-op. |
| `Handlers.OnTrack` | lib/index.js:136-142 | A track event is delivered iff the caller's context is an object. Removing `traits` and picking the route never decide that. |
| `Handlers.OnAlias` | lib/index.js:151-159 | An alias event is delivered iff the caller's context is an object. Rewriting `previousId`, `userId`, `from` and `to` never decides that. |
| `Handlers.ShapeTrack` | lib/index.js:137-141 | Removes `traits` and leaves every other key alone. The path is a truthy `options.url`, else `/track`. The callback is `options.callback` when `options` is an object. |
| `Handlers.TrackSent` | lib/index.js:136-142 | A track call sends its shaped envelope, normalised, to the shaped path, through the shaped callback. |
| `Handlers.NormalizedTrackBody` | lib/index.js:139 | Normalising the shaped track envelope does not bring `traits` back. |
| `Handlers.TrackNeverSendsTraits` | lib/index.js:137-141 | No track call sends `traits`, whatever the caller supplied. |
| `Handlers.TrackRoute` | lib/index.js:140-141 | A track call goes to `options.url` when truthy, else `/track`. It completes through `options.callback` when truthy, else the no-op. |
| `Handlers.ShapeAlias` | lib/index.js:152-157 | `previousId` is the chain `previousId or from or user.id() or user.anonymousId()`, and `userId` is `userId or to`. `from` and `to` are removed, and no other key changes. |
| `Handlers.AliasSent` | lib/index.js:151-158 | An alias call sends its shaped envelope, normalised, to `/alias`, through the no-op. |
| `Handlers.NormalizedAliasLacks` | lib/index.js:156-158 | Normalising the shaped alias envelope does not bring `from` or `to` back. |
| `Handlers.NormalizedAliasPreviousId` | lib/index.js:154 | Normalising the shaped alias envelope keeps the resolved `previousId`. |
| `Handlers.NormalizedAliasUserId` | lib/index.js:155 | After alias shaping and normalisation, `userId` is the chain `userId or to or user.id()`. |
| `Handlers.AliasSendsNoFromTo` | lib/index.js:151-158 | No alias call sends `from` or `to`, and each carries the resolved `previousId`. |
| `Handlers.AliasUserId` | lib/index.js:155 | The `userId` an alias call sends is the chain `userId or to or user.id()`. |
| `Handlers.ShapesKeepContext` | lib/index.js:136-159 | Track and alias shaping leave `context` and `options` alone, so a shaped event normalises exactly when the caller's would. |
| `Dispatch.ListenerNames` | lib/index.js:76 | `'on' + action` names a listener exactly for the five handled actions. |
| `Dispatch.Lookup` | lib/index.js:75-78 | An action has a handler iff it is `page`, `identify`, `group`, `track` or `alias`, and each maps to its own handler. |
| `Dispatch.Handle` | lib/index.js:78 | Every handler completes exactly when the event's context is an object (stored JSON being parsed totally, see Left out). Shaping never changes that. |
| `Dispatch.Step` | lib/index.js:74-80 | An action without a handler only signals ready. A handled event is delivered and then ready is signalled, with the store moving on. A handler that throws signals no ready and leaves the store alone. |
| `Dispatch.StepCounts` | lib/index.js:78-79 | Each invocation is closed by exactly one ready or one throw, and a delivery is followed by ready. |
| `Dispatch.Listen` | lib/index.js:73-80 | Over any event sequence, each event seeing its own host user and browser state (a `Scene`), and starting from the previous event's store as changed outside the adapter in between: ready signals = events − throwing events, throws = throwing events, and every delivery is immediately followed by ready. |
| `Dispatch.Initialize` | lib/index.js:71-81 | The first signal is ready, so the counts above get one extra ready. |

## Left out

- Network and beacon I/O, and the asynchronous timing of the HTTP
  callback. Both are inputs: the browser's `beaconAccepts` and `ajax`
  give the outcome, and the callback call is recorded, not run.
- The libraries (UTM and ad-parameter parsing, the registrable-domain
  lookup, md5, uuid, JSON, `extend`, the engine's string conversion of
  non-strings). They are opaque functions. Nothing is proved about md5
  collisions or uuid uniqueness, so messageId is not claimed unique.
- The merge direction of `extend` (which side wins on `context.referrer`).
  It is left to the library function.
- `Date`, `navigator.userAgent`, `debug` logging and the host framework's
  internals. The clock and the user agent are inputs; logging has no
  effect on the model.
- `loaded()` (always true) and `exports.global`. They compute nothing the
  model uses.
- Dispatch.Lookup: property lookup up the prototype chain is not
  modelled. Only the five listener names are handlers, so an action
  naming some other method of the integration object is treated as
  unhandled.
- Normalization.Prepare: `json.parse` of a malformed stored
  `s:context.referrer` entry (`lib/index.js:292`) throws in the source and
  aborts the event. The model's `parse` library function is total, so
  that failure is not modelled, and "fails exactly when" in the
  normalisation rows is relative to a total parse.
- Normalization.Prepare: only a plain object is accepted as the context.
  An array, function or `Date` under `context`/`options` is treated as a
  failure, although JavaScript would let properties be set on it.
- Transport.Send: a truthy callback that is not a function would throw
  when called; the model records the call and does not model that throw.
- The local-storage backend returns parsed JSON values, not strings. The
  model keeps one string store for both backends, so what `cookie(name)`
  reads is modelled as the cookie jar's string.
- Cookie expiry, path scoping, and two same-named cookies on different
  domains. The store holds one value per name.
- JavaScript key order, NaN and fractional numbers. Objects are maps and
  numbers are integers.

## Findings

| source | as written | input that shows it | evidently intended | confidence | as-written member | corrected member |
|---|---|---|---|---|---|---|
| lib/index.js:272 | After the domain-scoped write, `cookie()` reads the entry back and falls back to a host-only write only when the read-back is falsy. | An earlier non-empty value is stored under the name, the browser refuses the domain-scoped write, and it would accept the host-only write. The read-back finds the old value, so no fallback happens and the new value is lost. | Fall back whenever the read-back is not the value just written, so that any accepted write persists. | not executed | `Storage.CookieAsWritten`, `Storage.StaleValueMasksRefusedWrite`, `Normalization.ReferrerPersisted` | `Storage.Cookie`, `Storage.CookieWritePersists`, `Normalization.CorrectedReferrerPersisted` |

The adapter itself (`ReferrerId`, `AmpId`, and everything built on them)
is modelled on the accessor as written. The corrected accessor is used by
`Normalization.CorrectedAttributionStore`, which shows what the referrer
step would promise with the fix.

=== FILE: dispatch.dfy ===
/** Initialisation: the adapter signals ready, then handles every invoked
    event by the listener named after its action and signals ready again. */
module Dispatch {
  import opened Wrappers
  import opened JsValue
  import opened Storage
  import opened Environment
  import opened Normalization
  import opened Transport
  import opened Handlers

  /** The adapter's event handlers. */
  datatype Handler = PageHandler | IdentifyHandler | GroupHandler | TrackHandler | AliasHandler

  /** The listeners the adapter defines, by name. */
  const Listeners: map<string, Handler> := map[
    "onpage" := PageHandler,
    "onidentify" := IdentifyHandler,
    "ongroup" := GroupHandler,
    "ontrack" := TrackHandler,
    "onalias" := AliasHandler]

  /** The actions the adapter handles. */
  const HandledActions: set<string> := {"page", "identify", "group", "track", "alias"}

  /** The listener names are exactly `'on'` followed by a handled action. */
  lemma ListenerNames(action: string)
    ensures "on" + action in Listeners <==> action in HandledActions
  {
    var name := "on" + action;
    assert name[2..] == action;
    if name in Listeners {
      assert "onpage"[2..] == "page" && "onidentify"[2..] == "identify" && "ongroup"[2..] == "group";
      assert "ontrack"[2..] == "track" && "onalias"[2..] == "alias";
    }
    if action in HandledActions {
      assert "on" + "page" == "onpage" && "on" + "identify" == "onidentify" && "on" + "group" == "ongroup";
      assert "on" + "track" == "ontrack" && "on" + "alias" == "onalias";
    }
  }

  /** The listener for an action is the one named `'on' + action`, if the
      adapter defines it. */
  function Lookup(action: string): (h: Option<Handler>)
    ensures h.Some? <==> action in HandledActions
    ensures action == "page" ==> h == Some(PageHandler)
    ensures action == "identify" ==> h == Some(IdentifyHandler)
    ensures action == "group" ==> h == Some(GroupHandler)
    ensures action == "track" ==> h == Some(TrackHandler)
    ensures action == "alias" ==> h == Some(AliasHandler)
  {
    var name := "on" + action;
    ListenerNames(action);
    assert "on" + "page" == "onpage" && "on" + "identify" == "onidentify" && "on" + "group" == "ongroup";
    assert "on" + "track" == "ontrack" && "on" + "alias" == "onalias";
    if name in Listeners then Some(Listeners[name]) else None
  }

  /** Runs one handler on an event's JSON form. */
  function Handle(env: Env, store: Store, tick: Tick, h: Handler, json: Envelope): (r: Result<Delivery>)
    ensures r.Success? <==> ContextBase(json).Obj?
  {
    ShapesKeepContext(json, env.host.user);
    match h
    case PageHandler => OnPage(env, store, tick, json)
    case IdentifyHandler => OnIdentify(env, store, tick, json)
    case GroupHandler => OnGroup(env, store, tick, json)
    case TrackHandler => OnTrack(env, store, tick, json)
    case AliasHandler => OnAlias(env, store, tick, json)
  }

  /** An invoked event: its action and its JSON form. */
  datatype Event = Event(action: string, json: Envelope)

  /** What the adapter signals to its host. */
  datatype Signal =
    | Ready
    | Delivered(action: string, delivery: Delivery)
    | Threw(action: string, error: string)

  /** Signals emitted so far and the store after them. */
  datatype Run = Run(signals: seq<Signal>, store: Store)

  /** Whether an event makes its handler throw: it has a handler, and the
      handler's normalisation fails. */
  predicate Throws(e: Event) {
    Lookup(e.action).Some? && !ContextBase(e.json).Obj?
  }

  /** Handles one invoked event. An action without a listener only signals
      ready; a handled one is delivered and then ready is signalled; a
      handler that throws ends the invocation before ready. */
  function Step(env: Env, store: Store, tick: Tick, e: Event): (r: Run)
    ensures Throws(e) ==> |r.signals| == 1 && r.signals[0].Threw? && r.signals[0].action == e.action && r.store == store
    ensures Lookup(e.action).None? ==> r == Run([Ready], store)
    ensures Lookup(e.action).Some? && !Throws(e) ==>
      var res := Handle(env, store, tick, Lookup(e.action).value, e.json);
      res.Success? && r == Run([Delivered(e.action, res.value), Ready], res.value.store)
  {
    var h := Lookup(e.action);
    if h.None? then Run([Ready], store)
    else
      var res := Handle(env, store, tick, h.value, e.json);
      if res.Failure? then Run([Threw(e.action, res.error)], store)
      else Run([Delivered(e.action, res.value), Ready], res.value.store)
  }

  /** How many ready signals a signal sequence holds. */
  function Readies(signals: seq<Signal>): (n: nat) {
    if |signals| == 0 then 0
    else (if signals[0].Ready? then 1 else 0) + Readies(signals[1..])
  }

  /** How many throws a signal sequence holds. */
  function Thrown(signals: seq<Signal>): (n: nat) {
    if |signals| == 0 then 0
    else (if signals[0].Threw? then 1 else 0) + Thrown(signals[1..])
  }

  /** How many events of a sequence make their handler throw. */
  function Throwing(events: seq<Event>): (n: nat)
    ensures n <= |events|
  {
    if |events| == 0 then 0
    else (if Throws(events[0]) then 1 else 0) + Throwing(events[1..])
  }

  /** Every delivery is immediately followed by a ready signal. */
  ghost predicate ReadyAfterDelivery(signals: seq<Signal>) {
    forall i :: 0 <= i < |signals| && signals[i].Delivered? ==> i + 1 < |signals| && signals[i + 1] == Ready
  }

  /** Counting distributes over concatenation. */
  lemma {:induction false} CountsAppend(a: seq<Signal>, b: seq<Signal>)
    ensures Readies(a + b) == Readies(a) + Readies(b)
    ensures Thrown(a + b) == Thrown(a) + Thrown(b)
  {
    if |a| == 0 {
      assert a + b == b;
    } else {
      assert (a + b)[1..] == a[1..] + b;
      CountsAppend(a[1..], b);
    }
  }

  /** Two runs each with a ready after every delivery make one. */
  lemma ReadyAfterDeliveryAppend(a: seq<Signal>, b: seq<Signal>)
    requires ReadyAfterDelivery(a) && ReadyAfterDelivery(b)
    ensures ReadyAfterDelivery(a + b)
  {
    forall i | 0 <= i < |a + b| && (a + b)[i].Delivered?
      ensures i + 1 < |a + b| && (a + b)[i + 1] == Ready
    {
      if i < |a| {
        assert a[i].Delivered?;
      } else {
        assert b[i - |a|].Delivered?;
      }
    }
  }

  /** The three shapes a step's signals take: ready alone, a throw alone,
      or a delivery followed by ready. */
  predicate StepShaped(signals: seq<Signal>) {
    || signals == [Ready]
    || (|signals| == 1 && signals[0].Threw?)
    || (|signals| == 2 && signals[0].Delivered? && signals[1] == Ready)
  }

  /** A step-shaped signal sequence closes its invocation with one ready,
      or with one throw. */
  lemma ShapedCounts(signals: seq<Signal>)
    requires StepShaped(signals)
    ensures Readies(signals) == (if signals[0].Threw? then 0 else 1)
    ensures Thrown(signals) == (if signals[0].Threw? then 1 else 0)
    ensures ReadyAfterDelivery(signals)
  {
    if |signals| == 1 {
      assert signals[1..] == [];
    } else {
      assert signals[1..] == [Ready];
      assert signals[1..][1..] == [];
    }
  }

  /** One step closes its invocation with one ready, or with one throw. */
  lemma StepCounts(env: Env, store: Store, tick: Tick, e: Event)
    ensures var r := Step(env, store, tick, e);
      && Readies(r.signals) == (if Throws(e) then 0 else 1)
      && Thrown(r.signals) == (if Throws(e) then 1 else 0)
      && ReadyAfterDelivery(r.signals)
  {
    var r := Step(env, store, tick, e);
    assert StepShaped(r.signals);
    ShapedCounts(r.signals);
  }

  /** What the adapter reads afresh on each invocation: the host's current
      user and the browser (address, query string, storage, transport),
      and what happened to the stored entries since the previous
      invocation outside the adapter (an AMP id set or renewed by another
      script, an entry expired or cleared). Configuration and libraries
      stay those of the integration instance. */
  datatype Scene = Scene(host: Host, browser: Browser, elsewhere: Store -> Store)

  /** The environment one invocation sees. */
  function At(env: Env, scene: Scene): (e: Env) {
    Env(env.config, scene.host, scene.browser, env.libs)
  }

  /** Handles a sequence of invoked events in order, each at its own tick
      and in its own scene, threading the store through (each invocation
      starts from the previous one's store as changed elsewhere): every invocation that does not throw
      is closed by exactly one ready signal, every one that does by exactly
      one throw, and every delivery is followed by ready. */
  function Listen(env: Env, store: Store, events: seq<Event>, ticks: seq<Tick>, scenes: seq<Scene>): (r: Run)
    requires |ticks| == |events| && |scenes| == |events|
    ensures Readies(r.signals) == |events| - Throwing(events)
    ensures Thrown(r.signals) == Throwing(events)
    ensures ReadyAfterDelivery(r.signals)
    decreases |events|
  {
    if |events| == 0 then Run([], store)
    else
      var here := At(env, scenes[0]);
      var start := scenes[0].elsewhere(store);
      var first := Step(here, start, ticks[0], events[0]);
      var rest := Listen(env, first.store, events[1..], ticks[1..], scenes[1..]);
      StepCounts(here, start, ticks[0], events[0]);
      CountsAppend(first.signals, rest.signals);
      ReadyAfterDeliveryAppend(first.signals, rest.signals);
      Run(first.signals + rest.signals, rest.store)
  }

  /** Initialisation signals ready at once, then listens. */
  function Initialize(env: Env, store: Store, events: seq<Event>, ticks: seq<Tick>, scenes: seq<Scene>): (r: Run)
    requires |ticks| == |events| && |scenes| == |events|
    ensures |r.signals| > 0 && r.signals[0] == Ready
    ensures Readies(r.signals) == |events| - Throwing(events) + 1
    ensures Thrown(r.signals) == Throwing(events)
    ensures ReadyAfterDelivery(r.signals)
  {
    var run := Listen(env, store, events, ticks, scenes);
    CountsAppend([Ready], run.signals);
    ReadyAfterDeliveryAppend([Ready], run.signals);
    assert [Ready][1..] == [];
    Run([Ready] + run.signals, run.store)
  }
}

=== FILE: environment.dfy ===
/** Everything the adapter reads from outside itself: its configuration,
    the host framework, the browser and the libraries it calls. The
    libraries and browser primitives are opaque functions. */
module Environment {
  import opened JsValue
  import opened Storage

  /** The integration's options. */
  datatype Config = Config(
    apiKey: string,
    secureConnection: bool,
    apiHost: string,
    beacon: bool,
    addBundledMetadata: bool,
    unbundledIntegrations: seq<string>)

  /** The option defaults the integration registers. */
  const DefaultConfig: Config := Config("", false, "localhost:8080", false, false, [])

  /** The host's current user: `user.id()` and `user.anonymousId()`. */
  datatype User = User(id: Value, anonymousId: Value)

  /** The host framework: its user, its reported `VERSION` and the names of
      the integrations it knows. */
  datatype Host = Host(user: User, version: Value, integrations: seq<string>)

  /** What the JSON-over-HTTP library hands its callback. */
  datatype AjaxReply = AjaxReply(err: Value, res: Envelope)

  /** The browser: the query string, the user agent, the beacon primitive
      (whether it exists and whether it queues a given body for a URL), the
      HTTP request primitive, and storage. */
  datatype Browser = Browser(
    search: string,
    userAgent: Value,
    hasBeacon: bool,
    beaconAccepts: (string, string) -> bool,
    ajax: (string, Envelope, map<string, string>) -> AjaxReply,
    storage: StorePlatform)

  /** The libraries: campaign and ad-parameter parsing, the digest, JSON
      serialisation and parsing, object merge, and string conversion of
      non-string values. */
  datatype Libraries = Libraries(
    utm: string -> Value,
    ads: string -> Value,
    md5: string -> string,
    stringify: Value -> string,
    parse: string -> Value,
    extend: (Value, Value) -> Value,
    show: Value -> string)

  /** The ambient inputs of one normalisation: the clock and a fresh uuid. */
  datatype Tick = Tick(now: int, nonce: string)

  /** One adapter instance in its surroundings. */
  datatype Env = Env(config: Config, host: Host, browser: Browser, libs: Libraries)
}

=== FILE: handlers.dfy ===
/** The per-event-type handlers: each takes the event's JSON form, shapes
    it, and sends it to the path of its type. */
module Handlers {
  import opened Wrappers
  import opened JsValue
  import opened Storage
  import opened Environment
  import opened Normalization
  import opened Transport

  /** A page view is sent as it is: to `/page`, with the envelope merely
      normalised, completing through the no-op. */
  function OnPage(env: Env, store: Store, tick: Tick, json: Envelope): (r: Result<Delivery>)
    ensures r.Success? <==> ContextBase(json).Obj?
    ensures r.Success? ==>
      && r.value.url == Url(env.config, "/page")
      && r.value.msg == NormalizedMsg(env, store, tick, json)
      && r.value.call.callee == Noop
  {
    Send(env, store, tick, Str("/page"), json, Undefined)
  }

  /** An identify call is sent as it is: to `/identify`, with the envelope
      merely normalised, completing through the no-op. */
  function OnIdentify(env: Env, store: Store, tick: Tick, json: Envelope): (r: Result<Delivery>)
    ensures r.Success? <==> ContextBase(json).Obj?
    ensures r.Success? ==>
      && r.value.url == Url(env.config, "/identify")
      && r.value.msg == NormalizedMsg(env, store, tick, json)
      && r.value.call.callee == Noop
  {
    Send(env, store, tick, Str("/identify"), json, Undefined)
  }

  /** A group call is sent as it is: to `/group`, with the envelope merely
      normalised, completing through the no-op. */
  function OnGroup(env: Env, store: Store, tick: Tick, json: Envelope): (r: Result<Delivery>)
    ensures r.Success? <==> ContextBase(json).Obj?
    ensures r.Success? ==>
      && r.value.url == Url(env.config, "/group")
      && r.value.msg == NormalizedMsg(env, store, tick, json)
      && r.value.call.callee == Noop
  {
    Send(env, store, tick, Str("/group"), json, Undefined)
  }

  // ---------------------------------------------------------------------
  // Track

  /** A track call after shaping: the destination path, the envelope, and
      the completion callback. */
  datatype TrackShape = TrackShape(path: Value, body: Envelope, callback: Value)

  /** Drops `traits`; `options.url` overrides the path and
      `options.callback` becomes the completion callback. */
  function ShapeTrack(json: Envelope): (r: TrackShape)
    ensures "traits" !in r.body && SameOutside(r.body, json, {"traits"})
    ensures var opts := Get(json, "options");
      var url := if opts.Obj? then Get(opts.fields, "url") else Undefined;
      (Truthy(url) ==> r.path == url) && (!Truthy(url) ==> r.path == Str("/track"))
    ensures var opts := Get(json, "options");
      (opts.Obj? ==> r.callback == Get(opts.fields, "callback")) && (!opts.Obj? ==> r.callback == Undefined)
  {
    var body := json - {"traits"};
    var options := Or(Get(body, "options"), Obj(map[]));
    TrackShape(Or(Member(options, "url"), Str("/track")), body, Member(options, "callback"))
  }

  /** A track call is shaped, then sent; shaping never decides whether
      normalisation succeeds. */
  function OnTrack(env: Env, store: Store, tick: Tick, json: Envelope): (r: Result<Delivery>)
    ensures r.Success? <==> ContextBase(json).Obj?
  {
    var t := ShapeTrack(json);
    ContextBaseFrame(t.body, json, {"traits"});
    Send(env, store, tick, t.path, t.body, t.callback)
  }

  /** A track call sends its shaped envelope, normalised, to the shaped
      path, and completes through the shaped callback. */
  lemma TrackSent(env: Env, store: Store, tick: Tick, json: Envelope)
    requires ContextBase(json).Obj?
    ensures OnTrack(env, store, tick, json).Success?
    ensures var t := ShapeTrack(json);
      var d := OnTrack(env, store, tick, json).value;
      && d.url == Url(env.config, ToJsString(t.path, env.libs.show))
      && d.msg == NormalizedMsg(env, store, tick, t.body)
      && d.call.callee == (if Truthy(t.callback) then t.callback else Noop)
  {
    var t := ShapeTrack(json);
    ContextBaseFrame(t.body, json, {"traits"});
    SendDelivers(env, store, tick, t.path, t.body, t.callback);
  }

  /** Normalising a shaped track envelope does not bring `traits` back. */
  lemma NormalizedTrackBody(env: Env, store: Store, tick: Tick, json: Envelope)
    requires ContextBase(json).Obj?
    ensures "traits" !in NormalizedMsg(env, store, tick, ShapeTrack(json).body)
  {
    ContextBaseFrame(ShapeTrack(json).body, json, {"traits"});
    NormalizeKeepsField(env, store, tick, ShapeTrack(json).body, "traits");
  }

  /** No track call sends `traits`, whether or not the caller gave any. */
  lemma TrackNeverSendsTraits(env: Env, store: Store, tick: Tick, json: Envelope)
    requires ContextBase(json).Obj?
    ensures OnTrack(env, store, tick, json).Success?
    ensures "traits" !in OnTrack(env, store, tick, json).value.msg
  {
    TrackSent(env, store, tick, json);
    NormalizedTrackBody(env, store, tick, json);
  }

  /** A track call goes to `options.url` when that is truthy and to
      `/track` otherwise, and completes through `options.callback` when that
      is truthy and the no-op otherwise. */
  lemma TrackRoute(env: Env, store: Store, tick: Tick, json: Envelope)
    requires ContextBase(json).Obj?
    ensures OnTrack(env, store, tick, json).Success?
    ensures var opts := Get(json, "options");
      var url := if opts.Obj? then Get(opts.fields, "url") else Undefined;
      var d := OnTrack(env, store, tick, json).value;
      && (Truthy(url) ==> d.url == Url(env.config, ToJsString(url, env.libs.show)))
      && (!Truthy(url) ==> d.url == Url(env.config, "/track"))
    ensures var opts := Get(json, "options");
      var cb := if opts.Obj? then Get(opts.fields, "callback") else Undefined;
      OnTrack(env, store, tick, json).value.call.callee == (if Truthy(cb) then cb else Noop)
  {
    TrackSent(env, store, tick, json);
  }

  // ---------------------------------------------------------------------
  // Alias

  /** `previousId` is the first truthy of the explicit `previousId`, `from`,
      the user's id and the user's anonymous id; `userId` is the explicit
      `userId` or else `to`; `from` and `to` are dropped. */
  function ShapeAlias(json: Envelope, user: User): (r: Envelope)
    ensures "from" !in r && "to" !in r
    ensures "previousId" in r
      && r["previousId"] == OrChain([Get(json, "previousId"), Get(json, "from"), user.id, user.anonymousId])
    ensures "userId" in r && r["userId"] == OrChain([Get(json, "userId"), Get(json, "to")])
    ensures SameOutside(r, json, {"previousId", "userId", "from", "to"})
  {
    var previousId := Or(Or(Or(Get(json, "previousId"), Get(json, "from")), user.id), user.anonymousId);
    var userId := Or(Get(json, "userId"), Get(json, "to"));
    OrChainShort(Get(json, "previousId"), Get(json, "from"), user.id, user.anonymousId);
    OrChainShort(Get(json, "userId"), Get(json, "to"), user.id, user.anonymousId);
    json["previousId" := previousId]["userId" := userId] - {"from", "to"}
  }

  /** An alias call is shaped with the host's current user, then sent;
      shaping never decides whether normalisation succeeds. */
  function OnAlias(env: Env, store: Store, tick: Tick, json: Envelope): (r: Result<Delivery>)
    ensures r.Success? <==> ContextBase(json).Obj?
  {
    var shaped := ShapeAlias(json, env.host.user);
    ContextBaseFrame(shaped, json, {"previousId", "userId", "from", "to"});
    Send(env, store, tick, Str("/alias"), shaped, Undefined)
  }

  /** An alias call sends its shaped envelope, normalised, to `/alias`, and
      completes through the no-op. */
  lemma AliasSent(env: Env, store: Store, tick: Tick, json: Envelope)
    requires ContextBase(json).Obj?
    ensures OnAlias(env, store, tick, json).Success?
    ensures var d := OnAlias(env, store, tick, json).value;
      && d.url == Url(env.config, "/alias")
      && d.msg == NormalizedMsg(env, store, tick, ShapeAlias(json, env.host.user))
      && d.call.callee == Noop
  {
    var shaped := ShapeAlias(json, env.host.user);
    ContextBaseFrame(shaped, json, {"previousId", "userId", "from", "to"});
    SendDelivers(env, store, tick, Str("/alias"), shaped, Undefined);
  }

  /** Normalising a shaped alias envelope does not bring `from` or `to`
      back. */
  lemma NormalizedAliasLacks(env: Env, store: Store, tick: Tick, json: Envelope, k: string)
    requires ContextBase(json).Obj?
    requires k == "from" || k == "to"
    ensures k !in NormalizedMsg(env, store, tick, ShapeAlias(json, env.host.user))
  {
    ContextBaseFrame(ShapeAlias(json, env.host.user), json, {"previousId", "userId", "from", "to"});
    NormalizeKeepsField(env, store, tick, ShapeAlias(json, env.host.user), k);
  }

  /** Normalising a shaped alias envelope keeps the resolved `previousId`. */
  lemma NormalizedAliasPreviousId(env: Env, store: Store, tick: Tick, json: Envelope)
    requires ContextBase(json).Obj?
    ensures var m := NormalizedMsg(env, store, tick, ShapeAlias(json, env.host.user));
      var u := env.host.user;
      "previousId" in m
      && m["previousId"] == OrChain([Get(json, "previousId"), Get(json, "from"), u.id, u.anonymousId])
  {
    ContextBaseFrame(ShapeAlias(json, env.host.user), json, {"previousId", "userId", "from", "to"});
    NormalizeKeepsField(env, store, tick, ShapeAlias(json, env.host.user), "previousId");
  }

  /** Normalising a shaped alias envelope settles `userId` on the shaped
      one, or else on the host's user id. */
  lemma NormalizedAliasUserId(env: Env, store: Store, tick: Tick, json: Envelope)
    requires ContextBase(json).Obj?
    ensures var m := NormalizedMsg(env, store, tick, ShapeAlias(json, env.host.user));
      "userId" in m && m["userId"] == OrChain([Get(json, "userId"), Get(json, "to"), env.host.user.id])
  {
    ContextBaseFrame(ShapeAlias(json, env.host.user), json, {"previousId", "userId", "from", "to"});
    NormalizedIdentity(env, store, tick, ShapeAlias(json, env.host.user));
    OrChainShort(Get(json, "userId"), Get(json, "to"), env.host.user.id, env.host.user.anonymousId);
  }

  /** An alias call never sends `from` or `to`, and carries the resolved
      `previousId`. */
  lemma AliasSendsNoFromTo(env: Env, store: Store, tick: Tick, json: Envelope)
    requires ContextBase(json).Obj?
    ensures OnAlias(env, store, tick, json).Success?
    ensures var d := OnAlias(env, store, tick, json).value;
      "from" !in d.msg && "to" !in d.msg
    ensures var d := OnAlias(env, store, tick, json).value;
      var u := env.host.user;
      "previousId" in d.msg
      && d.msg["previousId"] == OrChain([Get(json, "previousId"), Get(json, "from"), u.id, u.anonymousId])
  {
    AliasSent(env, store, tick, json);
    NormalizedAliasLacks(env, store, tick, json, "from");
    NormalizedAliasLacks(env, store, tick, json, "to");
    NormalizedAliasPreviousId(env, store, tick, json);
  }

  /** The `userId` an alias call sends is the explicit one, else `to`, else
      (by normalisation) the host's user id. */
  lemma AliasUserId(env: Env, store: Store, tick: Tick, json: Envelope)
    requires ContextBase(json).Obj?
    ensures OnAlias(env, store, tick, json).Success?
    ensures var d := OnAlias(env, store, tick, json).value;
      "userId" in d.msg && d.msg["userId"] == OrChain([Get(json, "userId"), Get(json, "to"), env.host.user.id])
  {
    AliasSent(env, store, tick, json);
    NormalizedAliasUserId(env, store, tick, json);
  }

  /** Shaping touches neither `context` nor `options`, so a shaped event
      normalises exactly when the caller's would. */
  lemma ShapesKeepContext(json: Envelope, user: User)
    ensures ContextBase(ShapeTrack(json).body) == ContextBase(json)
    ensures ContextBase(ShapeAlias(json, user)) == ContextBase(json)
  {
    ContextBaseFrame(ShapeTrack(json).body, json, {"traits"});
    ContextBaseFrame(ShapeAlias(json, user), json, {"previousId", "userId", "from", "to"});
  }
}

=== FILE: js_value.dfy ===
/** JavaScript values as the adapter sees them, with the language's
    truthiness and the `||` operator written out. */
module JsValue {

  /** A JavaScript value. Numbers are integers (no NaN, no fractions);
      a function is known only by a label; a `Date` carries its epoch
      milliseconds. */
  datatype Value =
    | Undefined
    | Null
    | Bool(b: bool)
    | Num(n: int)
    | Str(s: string)
    | Date(ms: int)
    | Fn(name: string)
    | Arr(items: seq<Value>)
    | Obj(fields: map<string, Value>)

  /** A plain JavaScript object: one analytics event or its context. */
  type Envelope = map<string, Value>

  /** The values JavaScript's ToBoolean maps to `false` (section 7.1.2 of
      ECMA-262, less `-0`, `NaN` and `0n`, which this value model lacks). */
  const FalsyValues: set<Value> := {Undefined, Null, Bool(false), Num(0), Str("")}

  /** JavaScript's ToBoolean. */
  predicate Truthy(v: Value): (b: bool)
    ensures b <==> v !in FalsyValues
  {
    match v
    case Undefined => false
    case Null => false
    case Bool(b) => b
    case Num(n) => n != 0
    case Str(s) => s != ""
    case _ => true
  }

  /** `null` or `undefined`: the values whose properties cannot be read. */
  predicate Nullish(v: Value) {
    v.Undefined? || v.Null?
  }

  /** `a || b`: the left operand when it is truthy, else the right one. */
  function Or(a: Value, b: Value): (r: Value) {
    if Truthy(a) then a else b
  }

  /** `m.k` on a plain object: a missing key reads as `undefined`. */
  function Get(m: Envelope, k: string): (v: Value) {
    if k in m then m[k] else Undefined
  }

  /** `v.k` on any value that is not `null`/`undefined` (reading a property
      of those throws, hence the precondition). Primitives have none of the
      keys the adapter reads. */
  function Member(v: Value, k: string): (r: Value)
    requires !Nullish(v)
  {
    if v.Obj? then Get(v.fields, k) else Undefined
  }

  /** `vs[0] || vs[1] || ... || vs[|vs|-1]`. */
  function OrChain(vs: seq<Value>): (r: Value)
    requires |vs| > 0
  {
    if |vs| == 1 || Truthy(vs[0]) then vs[0] else OrChain(vs[1..])
  }

  /** Appending an operand to a chain is one more `||` on the left-nested
      expression: `(a || b) || c` is the chain `a || b || c`. */
  lemma {:induction false} OrChainAppend(vs: seq<Value>, v: Value)
    requires |vs| > 0
    ensures OrChain(vs + [v]) == Or(OrChain(vs), v)
  {
    var ext := vs + [v];
    assert ext[0] == vs[0];
    if |vs| == 1 {
      assert ext[1..] == [v];
    } else if !Truthy(vs[0]) {
      assert ext[1..] == vs[1..] + [v];
      OrChainAppend(vs[1..], v);
    }
  }

  /** The short chains written out as the left-nested `||` they abbreviate. */
  lemma OrChainShort(a: Value, b: Value, c: Value, d: Value)
    ensures OrChain([a, b]) == Or(a, b)
    ensures OrChain([a, b, c]) == Or(Or(a, b), c)
    ensures OrChain([a, b, c, d]) == Or(Or(Or(a, b), c), d)
  {
    OrChainAppend([a], b);
    assert [a] + [b] == [a, b];
    OrChainAppend([a, b], c);
    assert [a, b] + [c] == [a, b, c];
    OrChainAppend([a, b, c], d);
    assert [a, b, c] + [d] == [a, b, c, d];
  }

  /** A chain of `||` yields its first truthy operand, or its last operand
      when none is truthy; so it is truthy exactly when some operand is. */
  lemma {:induction false} OrChainPicksFirstTruthy(vs: seq<Value>)
    requires |vs| > 0
    ensures Truthy(OrChain(vs)) <==> exists i :: 0 <= i < |vs| && Truthy(vs[i])
    ensures forall i :: 0 <= i < |vs| && Truthy(vs[i]) && (forall j :: 0 <= j < i ==> !Truthy(vs[j]))
                        ==> OrChain(vs) == vs[i]
    ensures (forall j :: 0 <= j < |vs| - 1 ==> !Truthy(vs[j])) ==> OrChain(vs) == vs[|vs| - 1]
  {
    if |vs| == 1 || Truthy(vs[0]) {
    } else {
      var tail := vs[1..];
      OrChainPicksFirstTruthy(tail);
      assert forall i :: 1 <= i < |vs| ==> vs[i] == tail[i - 1];
      if exists i :: 0 <= i < |vs| && Truthy(vs[i]) {
        var i :| 0 <= i < |vs| && Truthy(vs[i]);
        assert Truthy(tail[i - 1]);
      }
      forall i | 0 <= i < |vs| && Truthy(vs[i]) && (forall j :: 0 <= j < i ==> !Truthy(vs[j]))
        ensures OrChain(vs) == vs[i]
      {
        assert i >= 1;
        assert forall j :: 0 <= j < i - 1 ==> !Truthy(tail[j]) by {
          forall j | 0 <= j < i - 1 ensures !Truthy(tail[j]) {
            assert tail[j] == vs[j + 1];
          }
        }
      }
      if forall j :: 0 <= j < |vs| - 1 ==> !Truthy(vs[j]) {
        assert forall j :: 0 <= j < |tail| - 1 ==> !Truthy(tail[j]) by {
          forall j | 0 <= j < |tail| - 1 ensures !Truthy(tail[j]) {
            assert tail[j] == vs[j + 1];
          }
        }
      }
    }
  }

  /** Two objects agree on every key outside `keys`: the same keys are
      present and hold the same values. */
  ghost predicate SameOutside(a: Envelope, b: Envelope, keys: set<string>) {
    forall k :: k !in keys ==> (k in a <==> k in b) && (k in a ==> a[k] == b[k])
  }

  /** JavaScript's string conversion as used by `+` on a string: a string
      is itself, anything else is rendered by `show`, which stands for the
      engine's conversion of non-string values. */
  function ToJsString(v: Value, show: Value -> string): (r: string)
    ensures v.Str? ==> r == v.s
    ensures !v.Str? ==> r == show(v)
  {
    if v.Str? then v.s else show(v)
  }
}

=== FILE: normalize.dfy ===
/** Envelope normalisation: the context, the identity fields, the referrer
    attribution, the bundled-metadata block, the message id and the AMP id. */
module Normalization {
  import opened Wrappers
  import opened JsValue
  import opened Storage
  import opened Environment

  /** Where the last referrer attribution is persisted. */
  const ReferrerKey: string := "s:context.referrer"

  /** The cookie an AMP page leaves its client id in. */
  const AmpKey: string := "segment_amp_id"

  /** The envelope keys normalisation may write or remove. */
  const NormalizedKeys: set<string> :=
    {"options", "context", "writeKey", "userId", "anonymousId", "sentAt", "_metadata", "messageId"}

  /** The context keys normalisation writes before the message id. */
  const ShapedKeys: set<string> := {"userAgent", "library", "campaign", "referrer"}

  // ---------------------------------------------------------------------
  // Referrer attribution

  /** The persisted attribution, parsed when an entry is present. */
  function StoredAttribution(env: Env, store: Store): (a: Value) {
    var stored := CookieAsWritten(env.browser.storage, store, GetCookie(ReferrerKey)).value;
    if Truthy(stored) && stored.Str? then env.libs.parse(stored.s) else stored
  }

  /** Ad parameters parsed from a non-empty query string. */
  function FreshAttribution(env: Env, query: string): (a: Value) {
    if query != "" then env.libs.ads(query) else Undefined
  }

  /** The attribution in force: fresh ad parameters win over the stored one. */
  function Attribution(env: Env, store: Store, query: string): (a: Value)
    ensures query != "" && Truthy(env.libs.ads(query)) ==> a == env.libs.ads(query)
    ensures !(query != "" && Truthy(env.libs.ads(query))) && ReferrerKey in store && store[ReferrerKey] != ""
            ==> a == env.libs.parse(store[ReferrerKey])
    ensures !(query != "" && Truthy(env.libs.ads(query))) && !(ReferrerKey in store && store[ReferrerKey] != "")
            ==> !Truthy(a)
  {
    Or(FreshAttribution(env, query), StoredAttribution(env, store))
  }

  /** The store after the attribution in force, if any, is persisted. */
  function AttributionStore(env: Env, store: Store, query: string): (s: Store) {
    var ad := Attribution(env, store, query);
    if !Truthy(ad) then store
    else CookieAsWritten(env.browser.storage, store, SetCookie(ReferrerKey, env.libs.stringify(ad))).store
  }

  /** A context after the referrer step, the store, and the writes issued. */
  datatype Referred = Referred(ctx: Envelope, store: Store, writes: seq<StoreWrite>)

  /** With no attribution nothing is touched; otherwise the attribution is
      merged into the context's referrer (the merge itself is the library's)
      and persisted, unmerged, under the referrer key. */
  function ReferrerId(env: Env, store: Store, query: string, ctx: Envelope): (r: Referred)
    ensures !Truthy(Attribution(env, store, query)) ==> r == Referred(ctx, store, [])
    ensures Truthy(Attribution(env, store, query)) ==>
      && SameOutside(r.ctx, ctx, {"referrer"})
      && "referrer" in r.ctx
      && r.ctx["referrer"] == env.libs.extend(Or(Get(ctx, "referrer"), Obj(map[])), Attribution(env, store, query))
      && 1 <= |r.writes| <= 2
      && (forall i :: 0 <= i < |r.writes| ==>
            r.writes[i].name == ReferrerKey && r.writes[i].val == env.libs.stringify(Attribution(env, store, query)))
      && r.writes == CookieAsWritten(env.browser.storage, store,
                                     SetCookie(ReferrerKey, env.libs.stringify(Attribution(env, store, query)))).writes
    ensures r.store == AttributionStore(env, store, query)
    ensures forall n :: n != ReferrerKey ==> Read(r.store, n) == Read(store, n)
  {
    var ad := Attribution(env, store, query);
    if !Truthy(ad) then Referred(ctx, store, [])
    else
      var merged := env.libs.extend(Or(Get(ctx, "referrer"), Obj(map[])), ad);
      var out := CookieAsWritten(env.browser.storage, store, SetCookie(ReferrerKey, env.libs.stringify(ad)));
      Referred(ctx["referrer" := merged], out.store, out.writes)
  }

  /** When the attribution in force ends up persisted: exactly when the
      backend takes the domain-scoped write, or takes the host-only one
      while no truthy entry was stored before, or the entry already held
      it. A refused domain-scoped write over an older entry keeps the older
      one. */
  lemma ReferrerPersisted(env: Env, store: Store, query: string, ctx: Envelope)
    requires Truthy(Attribution(env, store, query))
    ensures var val := env.libs.stringify(Attribution(env, store, query));
      var w := DomainWrite(env.browser.storage, ReferrerKey, val);
      var b := SelectStorage(env.browser.storage.protocol);
      Read(ReferrerId(env, store, query, ctx).store, ReferrerKey) == Str(val)
      <==> || env.browser.storage.accepts(b, w)
           || (env.browser.storage.accepts(b, HostOnly(w)) && !Truthy(Read(store, ReferrerKey)))
           || Read(store, ReferrerKey) == Str(val)
    ensures var w := DomainWrite(env.browser.storage, ReferrerKey, env.libs.stringify(Attribution(env, store, query)));
      !env.browser.storage.accepts(SelectStorage(env.browser.storage.protocol), w) && Truthy(Read(store, ReferrerKey))
      ==> ReferrerId(env, store, query, ctx).store == store
  {
    CookieAsWrittenPersists(env.browser.storage, store, ReferrerKey, env.libs.stringify(Attribution(env, store, query)));
  }

  /** The attribution write through the corrected accessor. */
  function CorrectedAttributionStore(env: Env, store: Store, query: string): (s: Store)
    ensures !Truthy(Attribution(env, store, query)) ==> s == store
    ensures forall n :: n != ReferrerKey ==> Read(s, n) == Read(store, n)
  {
    var ad := Attribution(env, store, query);
    if !Truthy(ad) then store
    else Cookie(env.browser.storage, store, SetCookie(ReferrerKey, env.libs.stringify(ad))).store
  }

  /** Through the corrected accessor the attribution in force is persisted
      whenever the backend takes either write, whatever was stored before. */
  lemma CorrectedReferrerPersisted(env: Env, store: Store, query: string)
    requires Truthy(Attribution(env, store, query))
    requires var w := DomainWrite(env.browser.storage, ReferrerKey, env.libs.stringify(Attribution(env, store, query)));
             var b := SelectStorage(env.browser.storage.protocol);
             env.browser.storage.accepts(b, w) || env.browser.storage.accepts(b, HostOnly(w))
    ensures Read(CorrectedAttributionStore(env, store, query), ReferrerKey)
            == Str(env.libs.stringify(Attribution(env, store, query)))
  {
    CookieWritePersists(env.browser.storage, store, ReferrerKey, env.libs.stringify(Attribution(env, store, query)));
  }

  // ---------------------------------------------------------------------
  // AMP id

  /** A non-empty AMP cookie becomes `context.amp = {id}`. */
  function AmpId(env: Env, store: Store, ctx: Envelope): (r: Envelope)
    ensures AmpKey in store && store[AmpKey] != "" ==> r == ctx["amp" := Obj(map["id" := Str(store[AmpKey])])]
    ensures !(AmpKey in store && store[AmpKey] != "") ==> r == ctx
  {
    var amp := CookieAsWritten(env.browser.storage, store, GetCookie(AmpKey)).value;
    if Truthy(amp) then ctx["amp" := Obj(map["id" := amp])] else ctx
  }

  // ---------------------------------------------------------------------
  // Normalisation

  /** `msg.context || msg.options || {}`. */
  function ContextBase(msg: Envelope): (base: Value) {
    Or(Or(Get(msg, "context"), Get(msg, "options")), Obj(map[]))
  }

  /** Envelopes that agree on `context` and `options` start from the same
      context. */
  lemma ContextBaseFrame(a: Envelope, b: Envelope, keys: set<string>)
    requires SameOutside(a, b, keys)
    requires "context" !in keys && "options" !in keys
    ensures ContextBase(a) == ContextBase(b)
  {
    assert Get(a, "context") == Get(b, "context");
    assert Get(a, "options") == Get(b, "options");
  }

  /** The library descriptor a context gets when it names none. */
  function DefaultLibrary(env: Env): (lib: Value) {
    Obj(map["name" := Str("analytics.js"), "version" := env.host.version])
  }

  /** A list of names as a JavaScript array of strings. */
  function Strings(xs: seq<string>): (r: seq<Value>)
    ensures |r| == |xs| && forall i :: 0 <= i < |xs| ==> r[i] == Str(xs[i])
  {
    seq(|xs|, i requires 0 <= i < |xs| => Str(xs[i]))
  }

  /** `_metadata`: every integration the host knows, and the configured
      unbundled ones. */
  function Metadata(env: Env): (meta: Value) {
    Obj(map["bundled" := Arr(Strings(env.host.integrations)),
            "unbundled" := Arr(Strings(env.config.unbundledIntegrations))])
  }

  /** An envelope with its normalised fields, and the store afterwards. */
  datatype Normalized = Normalized(msg: Envelope, store: Store)

  /** The context fields set before the referrer step: the user agent, a
      default library descriptor, and campaign parameters from a non-empty
      query string. Every other context field is kept. */
  function ShapeContext(env: Env, base: Envelope): (c: Envelope)
    ensures "userAgent" in c && c["userAgent"] == env.browser.userAgent
    ensures "library" in c
    ensures Truthy(Get(base, "library")) ==> c["library"] == base["library"]
    ensures !Truthy(Get(base, "library")) ==> c["library"] == DefaultLibrary(env)
    ensures env.browser.search != "" ==> "campaign" in c && c["campaign"] == env.libs.utm(env.browser.search)
    ensures env.browser.search == "" ==> Get(c, "campaign") == Get(base, "campaign")
    ensures SameOutside(c, base, {"userAgent", "library", "campaign"})
  {
    var query := env.browser.search;
    var c0 := base["userAgent" := env.browser.userAgent];
    var c1 := if Truthy(Get(c0, "library")) then c0 else c0["library" := DefaultLibrary(env)];
    if query != "" then c1["campaign" := env.libs.utm(query)] else c1
  }

  /** The envelope fields set around a finished context: `options` becomes
      `context`, the write key, the user ids, the send time and, when
      configured, the bundled-metadata block. Every other field is kept. */
  function StampEnvelope(env: Env, tick: Tick, msg: Envelope, ctx: Envelope): (m: Envelope)
    ensures "options" !in m
    ensures "context" in m && m["context"] == Obj(ctx)
    ensures "writeKey" in m && m["writeKey"] == Str(env.config.apiKey)
    ensures "userId" in m && "anonymousId" in m && "sentAt" in m
    ensures Truthy(Get(msg, "userId")) ==> m["userId"] == msg["userId"]
    ensures !Truthy(Get(msg, "userId")) ==> m["userId"] == env.host.user.id
    ensures m["anonymousId"] == env.host.user.anonymousId
    ensures m["sentAt"] == Date(tick.now)
    ensures env.config.addBundledMetadata ==> "_metadata" in m && m["_metadata"] == Metadata(env)
    ensures !env.config.addBundledMetadata ==> Get(m, "_metadata") == Get(msg, "_metadata")
    ensures SameOutside(m, msg, NormalizedKeys)
    ensures Get(m, "messageId") == Get(msg, "messageId")
  {
    var m0 := (msg["context" := Obj(ctx)] - {"options"})["writeKey" := Str(env.config.apiKey)];
    var m1 := m0["userId" := Or(Get(msg, "userId"), env.host.user.id)]
                ["anonymousId" := env.host.user.anonymousId]
                ["sentAt" := Date(tick.now)];
    if env.config.addBundledMetadata then m1["_metadata" := Metadata(env)] else m1
  }

  /** The context as normalisation leaves it before the AMP step: the user
      agent, the caller's library descriptor or else the default one,
      campaign parameters from a non-empty query string, the referrer
      attribution in force merged into the caller's referrer, and every
      other field as the caller supplied it. */
  function PreparedContext(env: Env, store: Store, base: Envelope): (c: Envelope)
    ensures "userAgent" in c && c["userAgent"] == env.browser.userAgent
    ensures "library" in c
    ensures Truthy(Get(base, "library")) ==> c["library"] == base["library"]
    ensures !Truthy(Get(base, "library")) ==> c["library"] == DefaultLibrary(env)
    ensures env.browser.search != "" ==> Get(c, "campaign") == env.libs.utm(env.browser.search)
    ensures env.browser.search == "" ==> Get(c, "campaign") == Get(base, "campaign")
    ensures var ad := Attribution(env, store, env.browser.search);
      Truthy(ad) ==> Get(c, "referrer") == env.libs.extend(Or(Get(base, "referrer"), Obj(map[])), ad)
    ensures var ad := Attribution(env, store, env.browser.search);
      !Truthy(ad) ==> Get(c, "referrer") == Get(base, "referrer")
    ensures SameOutside(c, base, ShapedKeys)
  {
    var shaped := ShapeContext(env, base);
    assert Get(shaped, "referrer") == Get(base, "referrer");
    ReferrerId(env, store, env.browser.search, shaped).ctx
  }

  /** Every normalisation step up to the message id. Fails exactly when the
      context it would use is a primitive (a strict-mode `TypeError` on the
      first property assignment). */
  function Prepare(env: Env, store: Store, tick: Tick, msg: Envelope): (r: Result<Normalized>)
    ensures r.Success? <==> ContextBase(msg).Obj?
    ensures r.Success? ==>
      r.value == Normalized(StampEnvelope(env, tick, msg, PreparedContext(env, store, ContextBase(msg).fields)),
                            AttributionStore(env, store, env.browser.search))
  {
    var base := ContextBase(msg);
    if !base.Obj? then Failure("TypeError: cannot create property 'userAgent' on a primitive context")
    else
      var c := ShapeContext(env, base.fields);
      var referred := ReferrerId(env, store, env.browser.search, c);
      Success(Normalized(StampEnvelope(env, tick, msg, referred.ctx), referred.store))
  }

  /** The message id: a fixed prefix and the digest of the serialised
      envelope with a fresh uuid appended. */
  function MessageId(env: Env, tick: Tick, msg: Envelope): (id: string)
    ensures |id| >= 4 && id[..4] == "ajs-"
    ensures id[4..] == env.libs.md5(env.libs.stringify(Obj(msg)) + tick.nonce)
  {
    "ajs-" + env.libs.md5(env.libs.stringify(Obj(msg)) + tick.nonce)
  }

  /** The whole normalisation: `Prepare`, then the message id computed over
      the prepared envelope, then the AMP id added to the context (after the
      digest, so the digest never covers it). */
  function Normalize(env: Env, store: Store, tick: Tick, msg: Envelope): (r: Result<Normalized>)
    ensures r.Success? <==> ContextBase(msg).Obj?
    ensures r.Success? ==>
      var s := AttributionStore(env, store, env.browser.search);
      var c := PreparedContext(env, store, ContextBase(msg).fields);
      var stamped := StampEnvelope(env, tick, msg, c);
      && r.value.store == s
      && r.value.msg == stamped["messageId" := Str(MessageId(env, tick, stamped))]["context" := Obj(AmpId(env, s, c))]
  {
    match Prepare(env, store, tick, msg)
    case Failure(e) => Failure(e)
    case Success(p) =>
      var id := MessageId(env, tick, p.msg);
      var ctx := AmpId(env, p.store, p.msg["context"].fields);
      Success(Normalized(p.msg["messageId" := Str(id)]["context" := Obj(ctx)], p.store))
  }

  /** The normalised envelope of a message whose context is an object. */
  function NormalizedMsg(env: Env, store: Store, tick: Tick, msg: Envelope): (m: Envelope)
    requires ContextBase(msg).Obj?
  {
    Normalize(env, store, tick, msg).value.msg
  }

  /** The identity fields of every normalised envelope: the context
      replaces the legacy `options`, the write key is the configured API key,
      a truthy caller `userId` is kept and otherwise the host's id is used,
      and the anonymous id is always the host's. */
  lemma NormalizedIdentity(env: Env, store: Store, tick: Tick, msg: Envelope)
    requires ContextBase(msg).Obj?
    ensures var m := NormalizedMsg(env, store, tick, msg);
      "options" !in m && "context" in m && m["context"].Obj?
    ensures var m := NormalizedMsg(env, store, tick, msg);
      "writeKey" in m && m["writeKey"] == Str(env.config.apiKey)
    ensures var m := NormalizedMsg(env, store, tick, msg);
      "userId" in m && (if Truthy(Get(msg, "userId")) then m["userId"] == msg["userId"] else m["userId"] == env.host.user.id)
    ensures var m := NormalizedMsg(env, store, tick, msg);
      "anonymousId" in m && m["anonymousId"] == env.host.user.anonymousId
  {
    var s := AttributionStore(env, store, env.browser.search);
    var c := PreparedContext(env, store, ContextBase(msg).fields);
    var stamped := StampEnvelope(env, tick, msg, c);
    assert NormalizedMsg(env, store, tick, msg)
        == stamped["messageId" := Str(MessageId(env, tick, stamped))]["context" := Obj(AmpId(env, s, c))];
  }

  /** The stamped fields of every normalised envelope: the send time, the
      bundled-metadata block exactly when it is configured (otherwise the
      caller's `_metadata`, if any, is left as it was), and a message id with
      its prefix, computed over the envelope before the id and the AMP id
      were added. */
  lemma NormalizedStamp(env: Env, store: Store, tick: Tick, msg: Envelope)
    requires ContextBase(msg).Obj?
    ensures var m := NormalizedMsg(env, store, tick, msg);
      "sentAt" in m && m["sentAt"] == Date(tick.now)
    ensures var m := NormalizedMsg(env, store, tick, msg);
      if env.config.addBundledMetadata then Get(m, "_metadata") == Metadata(env)
      else Get(m, "_metadata") == Get(msg, "_metadata")
    ensures var m := NormalizedMsg(env, store, tick, msg);
      "messageId" in m && m["messageId"].Str? && |m["messageId"].s| >= 4 && m["messageId"].s[..4] == "ajs-"
    ensures var m := NormalizedMsg(env, store, tick, msg);
      var stamped := StampEnvelope(env, tick, msg, PreparedContext(env, store, ContextBase(msg).fields));
      "messageId" in m && m["messageId"].Str?
      && m["messageId"].s[4..] == env.libs.md5(env.libs.stringify(Obj(stamped)) + tick.nonce)
  {
    var s := AttributionStore(env, store, env.browser.search);
    var c := PreparedContext(env, store, ContextBase(msg).fields);
    var stamped := StampEnvelope(env, tick, msg, c);
    assert NormalizedMsg(env, store, tick, msg)
        == stamped["messageId" := Str(MessageId(env, tick, stamped))]["context" := Obj(AmpId(env, s, c))];
  }

  /** Normalisation adds, removes or changes no field of the caller's
      envelope other than the ones it normalises; in particular a field the
      caller's envelope lacks is still absent afterwards. */
  lemma NormalizeKeepsOtherFields(env: Env, store: Store, tick: Tick, msg: Envelope)
    requires ContextBase(msg).Obj?
    ensures SameOutside(NormalizedMsg(env, store, tick, msg), msg, NormalizedKeys)
  {
    var c := PreparedContext(env, store, ContextBase(msg).fields);
    var stamped := StampEnvelope(env, tick, msg, c);
    assert SameOutside(NormalizedMsg(env, store, tick, msg), stamped, {"messageId", "context"});
  }

  /** One field outside the normalised ones, as `NormalizeKeepsOtherFields`
      states for all of them at once. */
  lemma NormalizeKeepsField(env: Env, store: Store, tick: Tick, msg: Envelope, k: string)
    requires ContextBase(msg).Obj?
    requires k !in NormalizedKeys
    ensures var m := NormalizedMsg(env, store, tick, msg);
      (k in m <==> k in msg) && (k in msg ==> m[k] == msg[k])
  {
    NormalizeKeepsOtherFields(env, store, tick, msg);
  }

  /** The context of every normalised envelope: the fields the preparation
      fills in (user agent, library, campaign, referrer), the AMP id when its
      cookie is set after the referrer step, and every other field as the
      caller supplied it in `context`, or else in `options`. */
  lemma NormalizedContext(env: Env, store: Store, tick: Tick, msg: Envelope)
    requires ContextBase(msg).Obj?
    ensures var m := NormalizedMsg(env, store, tick, msg);
      "context" in m && m["context"].Obj?
      && var ctx := m["context"].fields;
      var base := ContextBase(msg).fields;
      var s := AttributionStore(env, store, env.browser.search);
      && SameOutside(ctx, PreparedContext(env, store, base), {"amp"})
      && (AmpKey in s && s[AmpKey] != "" ==> Get(ctx, "amp") == Obj(map["id" := Str(s[AmpKey])]))
      && (!(AmpKey in s && s[AmpKey] != "") ==> Get(ctx, "amp") == Get(PreparedContext(env, store, base), "amp"))
  {
  }
}

=== FILE: storage.dfy ===
/** The adapter's storage accessor: backend selection by URL scheme and the
    cookie read/write with its domain fallback. */
module Storage {
  import opened Wrappers
  import opened JsValue

  /** The two persistence backends: local storage and the cookie jar. */
  datatype Backend = LocalStore | CookieJar

  /** Pages served from `file:` or from a browser extension cannot keep
      cookies, so they persist to local storage. */
  function SelectStorage(protocol: string): (b: Backend)
    ensures b == LocalStore <==> protocol == "file:" || protocol == "chrome-extension:"
    ensures b == CookieJar <==> protocol != "file:" && protocol != "chrome-extension:"
  {
    if protocol == "file:" || protocol == "chrome-extension:" then LocalStore else CookieJar
  }

  /** Attributes of one cookie write; `domain == None` is a host-only write. */
  datatype CookieOptions = CookieOptions(maxage: int, secure: bool, path: string, domain: Option<string>)

  /** One year, in milliseconds. */
  const OneYearMs: int := 31536000000

  /** The shared defaults every write starts from. */
  const DefaultCookieOptions: CookieOptions := CookieOptions(OneYearMs, false, "/", None)

  /** One write handed to the backend. */
  datatype StoreWrite = StoreWrite(name: string, val: string, opts: CookieOptions)

  /** The persisted entries, by name. */
  type Store = map<string, string>

  /** What the browser decides about storage: the page's scheme and address,
      the public-suffix library, and whether the backend takes a write
      (a browser refuses a cookie scoped to a domain it does not allow). */
  datatype StorePlatform = StorePlatform(
    protocol: string,
    href: string,
    topDomain: string -> string,
    accepts: (Backend, StoreWrite) -> bool)

  /** A one-argument backend call: the stored string, or `undefined`. */
  function Read(store: Store, name: string): (v: Value) {
    if name in store then Str(store[name]) else Undefined
  }

  /** A write takes effect only when the backend accepts it. */
  function Apply(p: StorePlatform, store: Store, w: StoreWrite): (s: Store)
    ensures p.accepts(SelectStorage(p.protocol), w) ==> Read(s, w.name) == Str(w.val)
    ensures !p.accepts(SelectStorage(p.protocol), w) ==> s == store
    ensures forall n :: n != w.name ==> Read(s, n) == Read(store, n)
  {
    if p.accepts(SelectStorage(p.protocol), w) then store[w.name := w.val] else store
  }

  /** The writes replayed in order. */
  function ApplyAll(p: StorePlatform, store: Store, ws: seq<StoreWrite>): (s: Store)
    decreases |ws|
  {
    if |ws| == 0 then store else ApplyAll(p, Apply(p, store, ws[0]), ws[1..])
  }

  /** The cookie domain: the page's registrable domain with a leading dot,
      or no restriction at all when that domain is unknown. */
  function CookieDomain(p: StorePlatform): (d: string)
    ensures p.topDomain(p.href) == "" ==> d == ""
    ensures p.topDomain(p.href) != "" ==> d == "." + p.topDomain(p.href)
  {
    var d := "." + p.topDomain(p.href);
    if d == "." then "" else d
  }

  /** The first, domain-scoped write: a fresh copy of the defaults with the
      cookie domain set. */
  function DomainWrite(p: StorePlatform, name: string, val: string): (w: StoreWrite) {
    StoreWrite(name, val, DefaultCookieOptions.(domain := Some(CookieDomain(p))))
  }

  /** The fallback: the same write with the domain attribute removed. */
  function HostOnly(w: StoreWrite): (h: StoreWrite) {
    w.(opts := w.opts.(domain := None))
  }

  /** `cookie(name)` reads; `cookie(name, val)` writes. */
  datatype CookieCall = GetCookie(name: string) | SetCookie(name: string, val: string)

  /** What a call returned, the store afterwards and the writes it issued. */
  datatype CookieOutcome = CookieOutcome(value: Value, store: Store, writes: seq<StoreWrite>)

  /** Every write leaves the shared defaults as they were: it differs from
      them in the domain attribute only. */
  predicate FromDefaults(ws: seq<StoreWrite>) {
    forall i :: 0 <= i < |ws| ==> ws[i].opts.(domain := None) == DefaultCookieOptions
  }

  /** The accessor as the adapter writes it: after the domain-scoped write it
      reads the entry back and falls back to a host-only write when the
      read-back is falsy. */
  function CookieAsWritten(p: StorePlatform, store: Store, call: CookieCall): (r: CookieOutcome)
    ensures call.GetCookie? ==> r.writes == [] && r.store == store && r.value == Read(store, call.name)
    ensures call.SetCookie? ==>
      && r.value == Undefined
      && 1 <= |r.writes| <= 2
      && r.writes[0] == DomainWrite(p, call.name, call.val)
      && (|r.writes| == 2 <==> !Truthy(Read(Apply(p, store, r.writes[0]), call.name)))
      && (|r.writes| == 2 ==> r.writes[1] == HostOnly(r.writes[0]))
      && FromDefaults(r.writes)
      && r.store == ApplyAll(p, store, r.writes)
    ensures call.SetCookie? ==> forall n :: n != call.name ==> Read(r.store, n) == Read(store, n)
  {
    match call
    case GetCookie(name) => CookieOutcome(Read(store, name), store, [])
    case SetCookie(name, val) =>
      var first := DomainWrite(p, name, val);
      var s1 := Apply(p, store, first);
      if Truthy(Read(s1, name)) then
        assert [first][1..] == [];
        CookieOutcome(Undefined, s1, [first])
      else
        var ws := [first, HostOnly(first)];
        assert ApplyAll(p, store, ws) == ApplyAll(p, s1, ws[1..]);
        assert ws[1..][1..] == [];
        assert ApplyAll(p, s1, ws[1..]) == ApplyAll(p, Apply(p, s1, HostOnly(first)), []);
        CookieOutcome(Undefined, Apply(p, s1, HostOnly(first)), ws)
  }

  /** A value already under the name masks a refused domain-scoped write:
      the read-back finds the old value, no fallback is issued, and the new
      value is lost although the host-only write would have been accepted. */
  lemma StaleValueMasksRefusedWrite(p: StorePlatform, store: Store, name: string, val: string)
    requires name in store && store[name] != "" && store[name] != val
    requires !p.accepts(SelectStorage(p.protocol), DomainWrite(p, name, val))
    requires p.accepts(SelectStorage(p.protocol), HostOnly(DomainWrite(p, name, val)))
    ensures |CookieAsWritten(p, store, SetCookie(name, val)).writes| == 1
    ensures Read(CookieAsWritten(p, store, SetCookie(name, val)).store, name) != Str(val)
  {
  }

  /** When a write through the accessor as written leaves the value
      readable: exactly when the backend takes the domain-scoped write, or
      takes the host-only one while nothing truthy was stored before, or
      the value was already there. */
  lemma CookieAsWrittenPersists(p: StorePlatform, store: Store, name: string, val: string)
    ensures var b := SelectStorage(p.protocol);
      var w := DomainWrite(p, name, val);
      Read(CookieAsWritten(p, store, SetCookie(name, val)).store, name) == Str(val)
      <==> || p.accepts(b, w)
           || (p.accepts(b, HostOnly(w)) && !Truthy(Read(store, name)))
           || Read(store, name) == Str(val)
  {
    var b := SelectStorage(p.protocol);
    var w := DomainWrite(p, name, val);
    var s1 := Apply(p, store, w);
    if !p.accepts(b, w) {
      assert s1 == store;
      if !Truthy(Read(store, name)) {
        var s2 := Apply(p, s1, HostOnly(w));
        assert HostOnly(w).name == name;
        assert !p.accepts(b, HostOnly(w)) ==> s2 == store;
      }
    }
  }

  /** The accessor with the read-back compared against the value written:
      the fallback runs exactly when the domain-scoped write did not take
      effect. */
  function Cookie(p: StorePlatform, store: Store, call: CookieCall): (r: CookieOutcome)
    ensures call.GetCookie? ==> r.writes == [] && r.store == store && r.value == Read(store, call.name)
    ensures call.SetCookie? ==>
      && r.value == Undefined
      && 1 <= |r.writes| <= 2
      && r.writes[0] == DomainWrite(p, call.name, call.val)
      && (|r.writes| == 2 <==> Read(Apply(p, store, r.writes[0]), call.name) != Str(call.val))
      && (|r.writes| == 2 ==> r.writes[1] == HostOnly(r.writes[0]))
      && FromDefaults(r.writes)
      && r.store == ApplyAll(p, store, r.writes)
    ensures call.SetCookie? ==> forall n :: n != call.name ==> Read(r.store, n) == Read(store, n)
  {
    match call
    case GetCookie(name) => CookieOutcome(Read(store, name), store, [])
    case SetCookie(name, val) =>
      var first := DomainWrite(p, name, val);
      var s1 := Apply(p, store, first);
      if Read(s1, name) == Str(val) then
        assert [first][1..] == [];
        CookieOutcome(Undefined, s1, [first])
      else
        var ws := [first, HostOnly(first)];
        assert ApplyAll(p, store, ws) == ApplyAll(p, s1, ws[1..]);
        assert ws[1..][1..] == [];
        assert ApplyAll(p, s1, ws[1..]) == ApplyAll(p, Apply(p, s1, HostOnly(first)), []);
        CookieOutcome(Undefined, Apply(p, s1, HostOnly(first)), ws)
  }

  /** The intended guarantee of the write: if the backend takes either the
      domain-scoped or the host-only write, the value reads back afterwards. */
  lemma CookieWritePersists(p: StorePlatform, store: Store, name: string, val: string)
    requires || p.accepts(SelectStorage(p.protocol), DomainWrite(p, name, val))
             || p.accepts(SelectStorage(p.protocol), HostOnly(DomainWrite(p, name, val)))
    ensures Read(Cookie(p, store, SetCookie(name, val)).store, name) == Str(val)
  {
    var first := DomainWrite(p, name, val);
    var s1 := Apply(p, store, first);
    if Read(s1, name) != Str(val) {
      assert !p.accepts(SelectStorage(p.protocol), first);
      var s2 := Apply(p, s1, HostOnly(first));
      assert Read(s2, name) == Str(val);
    }
  }
}

=== FILE: transport.dfy ===
/** Sending one event: the destination URL, normalisation, and the choice
    between the beacon and the JSON-over-HTTP request with the completion
    callback each one leads to. */
module Transport {
  import opened Wrappers
  import opened JsValue
  import opened Storage
  import opened Environment
  import opened Normalization

  /** `'http' + (secure ? 's' : '') + '://' + apiHost + path`. */
  function Url(config: Config, path: string): (u: string)
    ensures config.secureConnection ==> |u| >= 8 && u[..8] == "https://" && u[8..] == config.apiHost + path
    ensures !config.secureConnection ==> |u| >= 7 && u[..7] == "http://" && u[7..] == config.apiHost + path
  {
    "http" + (if config.secureConnection then "s" else "") + "://" + config.apiHost + path
  }

  /** The URL determines the path: two sends under one configuration reach
      the same URL only when their paths are the same. */
  lemma UrlDeterminesPath(config: Config, p: string, q: string)
    requires Url(config, p) == Url(config, q)
    ensures p == q
  {
    var n := if config.secureConnection then 8 else 7;
    var u := Url(config, p);
    assert u[n..] == config.apiHost + p && u[n..] == config.apiHost + q;
    assert (config.apiHost + p)[|config.apiHost|..] == p;
    assert (config.apiHost + q)[|config.apiHost|..] == q;
  }

  /** With the registered defaults, events go over plain HTTP to the local
      development collector. */
  lemma DefaultEndpoint(path: string)
    ensures Url(DefaultConfig, path) == "http://localhost:8080" + path
  {
  }

  /** The headers of the HTTP request. */
  const JsonHeaders: map<string, string> := map["Content-Type" := "application/json"]

  /** The adapter's own no-op, used when the caller passes no callback. */
  const Noop: Value := Fn("noop")

  /** One attempt to deliver: a beacon carrying the serialised envelope, or
      an HTTP POST of the envelope. */
  datatype Transmission =
    | Beacon(url: string, body: string)
    | Ajax(url: string, msg: Envelope, headers: map<string, string>)

  /** One call of the completion callback. */
  datatype Invocation = Invocation(callee: Value, args: seq<Value>)

  /** The HTTP leg: the request issued and the callback call its reply leads to. */
  datatype AjaxLeg = AjaxLeg(request: Transmission, call: Invocation)

  /** A delivered event: where it went, the envelope as sent, the attempts
      in order, the callback call, and the store afterwards. */
  datatype Delivery = Delivery(
    url: string,
    msg: Envelope,
    transmissions: seq<Transmission>,
    call: Invocation,
    store: Store)

  /** A failed request reports its error alone; a successful one reports no
      error and the response with the destination URL recorded on it. */
  function SendAjax(env: Env, url: string, msg: Envelope, fn: Value): (leg: AjaxLeg)
    ensures leg.request == Ajax(url, msg, JsonHeaders)
    ensures leg.call.callee == fn
    ensures var reply := env.browser.ajax(url, msg, JsonHeaders);
      if Truthy(reply.err) then leg.call.args == [reply.err]
      else |leg.call.args| == 2 && leg.call.args[0] == Null && leg.call.args[1].Obj?
           && SameOutside(leg.call.args[1].fields, reply.res, {"url"})
           && Get(leg.call.args[1].fields, "url") == Str(url)
  {
    var reply := env.browser.ajax(url, msg, JsonHeaders);
    if Truthy(reply.err) then AjaxLeg(Ajax(url, msg, JsonHeaders), Invocation(fn, [reply.err]))
    else AjaxLeg(Ajax(url, msg, JsonHeaders), Invocation(fn, [Null, Obj(reply.res["url" := Str(url)])]))
  }

  /** Whether the beacon is tried at all: configured, and offered by the browser. */
  predicate BeaconEnabled(env: Env) {
    env.config.beacon && env.browser.hasBeacon
  }

  /** Delivers a normalised envelope: tries the beacon when it is enabled,
      and falls back to the HTTP request when the beacon is not enabled or
      refuses the body. A beacon that queues the body ends the send with the
      callback called without arguments. */
  function Transmit(env: Env, url: string, n: Normalized, fn: Value): (d: Delivery)
    ensures d.url == url && d.msg == n.msg && d.store == n.store && d.call.callee == fn
    ensures var body := env.libs.stringify(Obj(n.msg));
      |d.transmissions| == (if BeaconEnabled(env) && !env.browser.beaconAccepts(url, body) then 2 else 1)
    ensures d.transmissions[0].Beacon? <==> BeaconEnabled(env)
    ensures var body := env.libs.stringify(Obj(n.msg));
      d.transmissions[0].Beacon? ==> d.transmissions[0] == Beacon(url, body)
    ensures var body := env.libs.stringify(Obj(n.msg));
      BeaconEnabled(env) && env.browser.beaconAccepts(url, body) ==> |d.transmissions| == 1 && d.call.args == []
    ensures var body := env.libs.stringify(Obj(n.msg));
      !(BeaconEnabled(env) && env.browser.beaconAccepts(url, body)) ==>
        && d.transmissions[|d.transmissions| - 1] == Ajax(url, n.msg, JsonHeaders)
        && d.call == SendAjax(env, url, n.msg, fn).call
  {
    if BeaconEnabled(env) then
      var body := env.libs.stringify(Obj(n.msg));
      if env.browser.beaconAccepts(url, body) then
        Delivery(url, n.msg, [Beacon(url, body)], Invocation(fn, []), n.store)
      else
        var leg := SendAjax(env, url, n.msg, fn);
        Delivery(url, n.msg, [Beacon(url, body), leg.request], leg.call, n.store)
    else
      var leg := SendAjax(env, url, n.msg, fn);
      Delivery(url, n.msg, [leg.request], leg.call, n.store)
  }

  /** Every send makes at most one HTTP request, always as its last
      attempt, and only when no beacon was queued; and it ends in exactly
      one callback call, whose arguments say which way it went: none after
      a queued beacon, the error alone after a failed request, and `null`
      with the response after a successful one. */
  lemma TransmitOnce(env: Env, url: string, n: Normalized, fn: Value)
    ensures var d := Transmit(env, url, n, fn);
      forall i :: 0 <= i < |d.transmissions| && d.transmissions[i].Ajax? ==> i == |d.transmissions| - 1
    ensures var d := Transmit(env, url, n, fn);
      var queued := BeaconEnabled(env) && env.browser.beaconAccepts(url, env.libs.stringify(Obj(n.msg)));
      d.transmissions[|d.transmissions| - 1].Ajax? <==> !queued
    ensures var d := Transmit(env, url, n, fn);
      var reply := env.browser.ajax(url, n.msg, JsonHeaders);
      var queued := BeaconEnabled(env) && env.browser.beaconAccepts(url, env.libs.stringify(Obj(n.msg)));
      && (queued ==> d.call.args == [])
      && (!queued && Truthy(reply.err) ==> d.call.args == [reply.err])
      && (!queued && !Truthy(reply.err) ==>
            d.call.args == [Null, Obj(reply.res["url" := Str(url)])])
  {
  }

  /** Sends `msg` to `path`: builds the URL, defaults the callback to the
      no-op, normalises the envelope and delivers it. Fails only when
      normalisation throws. */
  function Send(env: Env, store: Store, tick: Tick, path: Value, msg: Envelope, callback: Value): (r: Result<Delivery>)
    ensures r.Success? <==> ContextBase(msg).Obj?
    ensures r.Success? ==>
      r.value == Transmit(env, Url(env.config, ToJsString(path, env.libs.show)),
                          Normalize(env, store, tick, msg).value,
                          if Truthy(callback) then callback else Noop)
  {
    var url := Url(env.config, ToJsString(path, env.libs.show));
    var fn := Or(callback, Noop);
    match Normalize(env, store, tick, msg)
    case Failure(e) => Failure(e)
    case Success(n) => Success(Transmit(env, url, n, fn))
  }

  /** A send that normalises goes to the URL of its path, carries the
      normalised envelope, and completes through the caller's callback when
      that is truthy and the no-op otherwise. */
  lemma SendDelivers(env: Env, store: Store, tick: Tick, path: Value, msg: Envelope, callback: Value)
    requires ContextBase(msg).Obj?
    ensures Send(env, store, tick, path, msg, callback).Success?
    ensures var d := Send(env, store, tick, path, msg, callback).value;
      && d.url == Url(env.config, ToJsString(path, env.libs.show))
      && d.msg == NormalizedMsg(env, store, tick, msg)
      && d.call.callee == (if Truthy(callback) then callback else Noop)
  {
  }
}

=== FILE: wrappers.dfy ===
/** Failure-carrying datatypes used throughout the model. */
module Wrappers {

  /** An optional value: the adapter's "attribute present or not". */
  datatype Option<+T> = None | Some(value: T)

  /** The outcome of an operation that can throw; the error carries the
      JavaScript exception's message. */
  datatype Result<+T> = Success(value: T) | Failure(error: string)
}
